=== FILE: README.md ===
# vSphere inventory client — a Dafny model

A model of the inventory core of `Vsphere_Class.php`, a PHP client that
enumerates the virtual machines and hypervisor hosts a VMware vCenter manages.
A caller configures a list of ESX host names (`setEsxHosts`) and then calls
`getAllVmsFromESXHosts`, which goes through the hosts in order:

- it retrieves each host's properties;
- it retrieves and normalises (`extractRelevantData`) every VM the host lists
  at `propSet[27]`;
- it keeps the VMs whose `Template` is not the boolean `true`, each stamped
  with `HostedOn`;
- it appends the host's own normalised record (`extractRelevantHostData`).

The object's `$serverData` and `$hostData` accumulators are never reset. If
any remote call throws, the method returns `false`, and what it already
appended stays in place. The script dies if a read indexes an object with
`[i]`, or if the progress line echoes a VM name that is an object. The method
then returns nothing at all.

Files:

- `wrappers.dfy`: `Option`, `Result`, and the first error of a sequence of results.
- `php.dfy`: the PHP values the SOAP extension decodes. It also models
  `isset` on access chains such as `$ret->returnval->propSet[3]->val->name`,
  `count`/`sizeof`, and the values `foreach` visits. The semantics are
  PHP 5's:
  - a missing property reads as null, and so does an index of null, of a
    number or boolean, or past the end of a list or string;
  - an index of a string is the one-character string at that offset. A
    property of that string reads as null, and every index in the extraction
    paths is followed by a property step;
  - an index of an object stops the script (`Dies`);
  - converting an object to a string stops the script (`ToStringDies`);
  - `count` is 0 for null, the length of a list, and 1 for any other value;
  - `foreach` over an object visits its member values.
- `extraction.dfy`: the two normalisations. Each array key is described
  once, by a rule that reads a path with a fallback, is a constant, or counts
  a list. A record holds the keys' values in the order the PHP array builds
  them.
- `vsphere.dfy`: the object state touched by the aggregation (`Client`) and
  the remote calls as parameters (`Remote`). It holds the aggregation in
  three forms:
  - the two nested loops, as the method `GetAllVmsFromEsxHosts`;
  - a fold that does the same, `Collect`;
  - a declarative account of the same result: per-host `Visit`s, the first
    host that stops, and the records of the hosts reached.
- `vsphere_properties.dfy`: the fold agrees with the declarative account, and
  the consequences for callers follow from that.

Failure handling follows the code. Only the return value of a failed call
carries nothing. The
host records and VM records it appended before the fault stay in
`$hostData` and `$serverData`, and the next successful call returns them
together with its own (`FailedCollectionKeepsAppends`). A fatal error is not
an exception, so the `catch` at line 230 does not see it. The call then ends
in `Died`, not in `false`. A policy that records
per-host failures and returns partial results is not what the code does, and
it is not modelled. A host name that does not resolve is whatever
`getHostProperties` then returns or throws. The code does not check the lookup
result separately.

The remote calls are modelled as functions of a fixed remote state. Each call
either answers with a decoded response or fails with a `Fault`: `Thrown` for
an exception, `Fatal` for an error that stops the script.

A host with exactly one VM is handled as the code does it. The SOAP
extension then decodes `ManagedObjectReference` as a single object, not a
list, and `foreach` walks that object's member values. `VmRefs` therefore
yields the object's members, one per member value. It does not wrap the
object into a one-element list (`VmRefsShape`). A reference with an id and a
type thus lists two references, the id and the type name
(`OneVmReferenceObject`).

The same decoding is fatal where the code indexes the value. A host with a
single CPU package gets `cpuPkg` as an object, not a list, and
`isset(...->cpuPkg[0]->threadId)` at line 130 then stops the script with
"Cannot use object of type stdClass as array". PHP 5 raises a fatal error, and
PHP 7 and later raise an `Error`, which `catch (Exception $e)` does not catch.
A response whose `propSet` holds a single property is an object for the
same reason, and every `propSet[i]` read of it dies. `VmDies` and `HostDies`
say when an extraction dies. `VmDiesIff` and `HostDiesIff` reduce this to
those two cases. The walk stops at the first such read, after the appends it
already made.

The progress line at line 212 echoes `$data['Name']` before the template test
at line 214. A VM whose name property is an object cannot be converted to a
string ("Object of class stdClass could not be converted to string"). PHP 5
through 7.3 raise a recoverable error, which is fatal when no handler is set.
PHP 7.4 and later throw an `Error`, which the `catch` does not catch. Either
way the script dies at that VM, template or not (`ObjectNameDies`).

## Model

| member | source | states |
|---|---|---|
| Php.GetOfNull | Vsphere_Class.php:77-95 | Reading any chain below a missing property yields null, so an `isset` guard over a chain with a missing step is false. A guard whose chain indexes an object does not reach this: it dies (`Dies`). |
| Php.GetConcat | Vsphere_Class.php:77-95 | Reading `$x->a…->b…` equals reading `->b…` from what `$x->a…` yields. |
| Php.UnsetPrefix | Vsphere_Class.php:78-83 | When `$ret->returnval->propSet[3]->val` is not set, no longer chain through it is set either. |
| Extraction.VmSlotsMatchKeys | Vsphere_Class.php:97-117 | The position of each key in a VM record matches the order of the array literal. The keys without a rule (`Vendor`, `Hypervisor`, `HostedOn`) are exactly the ones the literal lacks. |
| Extraction.HostSlotsMatchKeys | Vsphere_Class.php:143-161 | The same for the host record. Its only keys without a rule are the VM-only keys (`Template`, `Vmdks`, `Disks`, `Hardware`, `HostedOn`). |
| Extraction.ExtractVm | Vsphere_Class.php:76-120 | On a response where no read dies (`VmDies`), `extractRelevantData` returns the nineteen keys of the array literal and no `HostedOn`. |
| Extraction.ExtractHost | Vsphere_Class.php:123-164 | On a response where no read dies (`HostDies`), `extractRelevantHostData` returns its seventeen keys. |
| Extraction.ExtractVmFollowsRules | Vsphere_Class.php:77-117 | Every key of a VM record holds what its `isset(...) ? ... : fallback` line computes. A key the array does not hold, `HostedOn` included, reads as null. |
| Extraction.ExtractHostFollowsRules | Vsphere_Class.php:124-161 | The same for every key of a host record. This includes the constants and the `sizeof` count. |
| Extraction.VmRulesRead | Vsphere_Class.php:77-95 | Every VM key is read from the response. Its fallback is 0 for `Memory`, an empty array for `Vmdks` and `Disks`, and '' for the rest. |
| Extraction.VmFieldPresentOrDefault | Vsphere_Class.php:77-95 | When its property is set, a VM key holds the property's value. Otherwise it holds its fallback. In both cases the key is never null. |
| Extraction.ConfigRules | Vsphere_Class.php:78-95 | The name, OS, UUID, memory, CPU, core, template and hardware keys are read from inside `propSet[3]->val`, each with its own fallback. |
| Extraction.ConfigKeyDefaults | Vsphere_Class.php:78-95 | On a response where no read dies, when `propSet[3]->val` is missing, each key read from inside it takes its fallback. When `propSet` is an object, the reads die instead (`VmDiesIff`), and the fallbacks are never used. |
| Extraction.MissingConfigDefaults | Vsphere_Class.php:78-95 | On a response where no read dies, a response without `propSet[3]` gives all eight configuration keys their fallbacks together: 0 for memory, '' for the name, OS, UUID, CPUs, cores, template and hardware. |
| Extraction.NameEchoDiesIff | Vsphere_Class.php:78 | The normalised `Name` is an object, and so cannot be echoed at line 212, exactly when the raw name property is one. A missing name reads as '', which converts. |
| Extraction.TemplateFlag | Vsphere_Class.php:91 | The record's `Template` is `true` exactly when the raw property is the boolean `true`. A missing template property gives ''. |
| Extraction.HostConstants | Vsphere_Class.php:126-134 | A host's `OSName` is always 'ESX', and its `IpAddress` and `Host` are always '', whatever the response holds. |
| Extraction.HostCoresCountThreads | Vsphere_Class.php:130 | When `cpuPkg[0]->threadId` is a list, `Cores` is its length. When it is not set, `Cores` is ''. When `cpuPkg` is a single object, the extraction dies instead. |
| Extraction.HostReadFallback | Vsphere_Class.php:124-140 | A host key that is read from the response falls back to 0 for `Memory` and to '' for every other key. |
| Extraction.HostFieldPresentOrDefault | Vsphere_Class.php:124-140 | A host key that is read from the response holds the property's value when it is set, and its fallback otherwise. |
| Php.StringOffsets | Vsphere_Class.php:78 | An index of a string never dies. It finds the one-character string at that offset, or null past the end, and a property read after it is never set. So a `propSet` decoded as a string makes a guard on `propSet[3]->val` false rather than fatal. |
| Php.PropsOnlyNeverDies | Vsphere_Class.php:77 | A chain of property reads only, such as `->returnval->obj->_`, never stops the script, whatever it is read from. |
| Extraction.VmRulesIndexPropSetOnly | Vsphere_Class.php:77-95 | The only index any VM read applies is the position in `->returnval->propSet`. |
| Extraction.HostRulesIndexPropSetOnly | Vsphere_Class.php:124-140 | The same holds for every host read except the thread-id count of line 130. |
| Extraction.PropSetOnlyDies | Vsphere_Class.php:77-95 | A read whose only index is into `propSet` dies only when `propSet` is an object. |
| Extraction.PropSetObjectDies | Vsphere_Class.php:78 | When `propSet` is an object, every `propSet[i]` read dies. |
| Extraction.ThreadIdsDie | Vsphere_Class.php:130 | Reading `propSet[13]->val->cpuPkg[0]->threadId` dies exactly when `propSet` or `cpuPkg` is an object. |
| Extraction.VmDiesIff | Vsphere_Class.php:77-95 | `extractRelevantData` dies exactly when `propSet` is an object. |
| Extraction.HostDiesIff | Vsphere_Class.php:124-140 | `extractRelevantHostData` dies exactly when `propSet` is an object or the CPU packages are a single object. |
| Vsphere.SetEsxHosts | Vsphere_Class.php:45-47 | Replaces the host list and keeps both accumulators. |
| Vsphere.EndedBy | Vsphere_Class.php:230-234 | A caught exception makes the call return `false`. A fatal error ends the script, and the call returns nothing. |
| Vsphere.GetAllVmsFromEsxHosts | Vsphere_Class.php:198-235 | The two nested loops compute exactly the fold `Collect`. This includes the early `return false` on a throw and the fatal errors of lines 206, 211, 212 and 224. The host list is unchanged. A successful return is the pair of accumulators. |
| VsphereProperties.AdmitMembers | Vsphere_Class.php:214-218 | A record is appended for a host exactly when it is one of the host's non-template VMs stamped with the host's name. Every appended record is a non-template carrying that name. |
| VsphereProperties.AdmitAppend | Vsphere_Class.php:209-222 | Filtering a concatenation filters each part in turn, so VM order is preserved. |
| VsphereProperties.AdmittedIffKept | Vsphere_Class.php:214 | A VM's stamped record is appended exactly when `$data['Template'] !== true`. |
| VsphereProperties.AdmitKeepsOrder | Vsphere_Class.php:209-222 | When no VM is a template, every VM is appended, stamped, in the order listed. |
| VsphereProperties.KeptIffNotTemplate | Vsphere_Class.php:91 | A fetched VM is kept exactly when its raw template property is not `true`. A VM without that property is kept. |
| VsphereProperties.StampSetsHostedOn | Vsphere_Class.php:216 | The stamp sets `HostedOn` to the host's name and changes no other key. |
| VsphereProperties.VmRefsShape | Vsphere_Class.php:206-209 | A host's VM references are what `foreach` visits at `propSet[27]->val->ManagedObjectReference`: a list's elements, an object's member values, and nothing for null or a scalar. |
| VsphereProperties.OneVmReferenceObject | Vsphere_Class.php:209 | A single VM reference decoded as an object with an id and a type gives two references, the id and the type name. |
| VsphereProperties.ObjectNameDies | Vsphere_Class.php:211-214 | A VM whose name property is an object ends its fetch in the string-conversion error, before the template test. |
| VsphereProperties.ContributionFirst | Vsphere_Class.php:209-222 | The VM loop's contribution, taken apart at the first VM: a fault there contributes nothing. Otherwise the first VM's filtered record comes before the rest. |
| VsphereProperties.WalkVmsStep | Vsphere_Class.php:210-219 | One iteration of the inner loop: a VM whose fetch goes through appends its record, stamped, when it is not a template, and the loop continues with the next reference. |
| VsphereProperties.WalkVmsSpec | Vsphere_Class.php:209-222 | The inner loop appends, in order, the kept, stamped VMs fetched before the first fault, and reports that fault. The fault is a throw, or a fatal answer, extraction or echo. |
| VsphereProperties.WalkHostsFirst | Vsphere_Class.php:203-227 | In the outer loop, a host that stops ends the walk with the VMs it appended. A host that completes appends its VMs, then its record, and the walk continues. |
| VsphereProperties.DeclaredFirst | Vsphere_Class.php:203-227 | The declarative account decomposes at the first host in the same way. |
| VsphereProperties.WalkHostsSpec | Vsphere_Class.php:202-234 | The outer loop appends, for each host it reaches, the host's VMs and (when it completes) its record. It stops at the first host that throws or dies. |
| VsphereProperties.VmListReadDies | Vsphere_Class.php:206-209 | Reading a host's VM list dies exactly when its `propSet` is an object. The host record's extraction would then die too. |
| VsphereProperties.HostCompletesIff | Vsphere_Class.php:205-224 | A host completes exactly when three things hold: its property fetch goes through, its record's extraction does not die, and every VM it lists is fetched, extracted and echoed without dying. |
| VsphereProperties.SingleCpuPackageNeverCompletes | Vsphere_Class.php:130 | A host whose `cpuPkg` is a single object never completes, whatever its VMs do. |
| VsphereProperties.CompletedRecord | Vsphere_Class.php:224 | The record of a completed host is `extractRelevantHostData` of its properties. |
| VsphereProperties.HostWithoutVms | Vsphere_Class.php:209-224 | A host that lists no VMs contributes no VM records. It still gets its host record unless that record's extraction dies. |
| VsphereProperties.CompletedVisit | Vsphere_Class.php:205-224 | A host whose own fetch and every VM fetch, extraction and echo go through leaves its non-template VMs. They come in the order the reference list gives them, each normalised and stamped with the host. The host completes with its host record unless that record's extraction dies. |
| VsphereProperties.VisitVmsMembers | Vsphere_Class.php:209-219 | The VM records a host leaves are exactly its non-template VMs fetched before any fault, each stamped with the host. |
| VsphereProperties.FetchedRecord | Vsphere_Class.php:210-212 | A VM fetch that goes through yields `extractRelevantData` of the response. One that throws carries the fault. One whose extraction dies carries the index error, and one whose name cannot be echoed carries the conversion error. |
| VsphereProperties.VisitVmsStamped | Vsphere_Class.php:214-218 | Every VM record a host leaves, whether or not the host completes, is a non-template stamped with that host. |
| VsphereProperties.RecordsOfCompleted | Vsphere_Class.php:224 | Completed hosts give one host record each, in order. |
| VsphereProperties.VisitedVmsMembers | Vsphere_Class.php:218 | A VM record of several hosts' visits belongs to one of those hosts. |
| VsphereProperties.RecordsAppend | Vsphere_Class.php:224 | The host records of consecutive runs of hosts concatenate. |
| VsphereProperties.VisitedVmsAppend | Vsphere_Class.php:218 | The VM records of consecutive runs of hosts concatenate. |
| VsphereProperties.AllCompleteVisits | Vsphere_Class.php:203-227 | When every host completes, the walk reaches the end of the host list. |
| VsphereProperties.CollectSucceedsIff | Vsphere_Class.php:229-234 | The call returns the data exactly when every configured host completes: its record is fetched and extracted, and every VM it lists is fetched, extracted and echoed, all without dying or throwing. |
| VsphereProperties.SuccessfulCollection | Vsphere_Class.php:229 | On success, the returned `hosts` and `servers` are the earlier accumulators followed by this call's records. The object keeps the same lists. |
| VsphereProperties.OneHostRecordPerHost | Vsphere_Class.php:203-227 | On success, there is exactly one host record per configured host, in order, each `extractRelevantHostData` of that host's properties, after the earlier records. |
| VsphereProperties.CollectedVmsAreStamped | Vsphere_Class.php:214-218 | Every VM record a successful call adds is a non-template stamped with one of the configured hosts. |
| VsphereProperties.DeclaredStopped | Vsphere_Class.php:230-234 | When a host stops, the account holds the records and VMs of the hosts before it, then that host's VMs, and its fault. |
| VsphereProperties.FailedCollectionKeepsAppends | Vsphere_Class.php:230-234 | A failed call returns `false` on an exception and nothing on a fatal error. The object still holds the records and VMs of the hosts that completed, plus the VMs the failing host appended before the fault. The failing host gets no host record. |
| VsphereProperties.RepeatedCollectionAccumulates | Vsphere_Class.php:18-20 | A second call without a reset appends the same records again, so the call is not idempotent whenever a host is configured. |
| VsphereProperties.FirstCollection | Vsphere_Class.php:18-20 | On a new object (both accumulators empty), setting the hosts and collecting once returns exactly those hosts' records and their VMs' records. |

## Left out

- Connection, login and the SOAP requests (`connect`, `login`, lines 50-73; the request building in `getPropertyByMoRefID` and `getHostProperties`, lines 169-195): the transport belongs to the SOAP extension. The two fetches are the parameters `Remote.vmProperties` and `Remote.hostProperties`, which return a decoded response or a `Fault`.
- The remote service is a fixed function of its state. Answers that change between calls, or between two fetches of the same reference, are not modelled.
- The credential setters and the constructor (lines 22-42) only store strings and call `connect`. `Fresh` is the state they leave, with the empty arrays of lines 18-20, and `FirstCollection` starts from it.
- The text of the progress output (`echo` lines 204 and 212, `printf` line 231) and its counters (`$numberOfEsxHosts`, `$esxHostCount`, `$numberOfVMs`, `$vmCount`) are not modelled. The one effect of that output, the death when line 212 echoes an object name, is modelled. Line 204 echoes host names, which are strings, and the counters are numbers, so nothing else there can fail.
- `sizeof` on lines 206 and 130 follows PHP 5, which counts any non-array value without complaint: 0 for null and 1 for anything else. At line 206 it sees null for a host without VMs and an object for a host with one VM. At line 130 a `threadId` that is not a list, such as a single thread decoded as a scalar, gives `Cores` 1. PHP 7.0 and 7.1 do the same. PHP 7.2 to 7.4 warn and return the same numbers. PHP 8 throws a `TypeError` for such values, which the `catch (Exception $e)` does not catch. Under PHP 8 a host with zero or one VM, or with a non-list `threadId`, would end the script. At line 206 the count is only printed, so under PHP 5 it changes nothing. `foreach` over null only warns in every version.
- `$esxHosts` is taken to be a list of strings. A non-array argument to `setEsxHosts` is not modelled.
- Floating-point values in responses are not represented; the extraction only copies values, it never inspects numbers.
- PHP error handlers that turn notices or warnings into exceptions, or that recover from the string-conversion error, are not modelled. The faults are what the remote fetches throw or die with, the fatal error of indexing an object, and the fatal error of echoing an object name.
- The exception's message and string form (line 231) are kept only as the `Fault` value.
- `test.php` is a usage script and is not part of this model.

=== FILE: extraction.dfy ===
/**
 Normalisation of one property-retrieval response into a flat record: the VM
 record of `extractRelevantData` and the host record of `extractRelevantHostData`.
 Every field is read at a fixed position `propSet[i]` of the response; a field
 that is not there takes a per-field fallback. The one way a read fails is by
 indexing an object, which stops the script (`VmDies`, `HostDies`).
 */
module Extraction {
  import opened Wrappers
  import opened Php

  /** The keys of the PHP arrays the client builds. */
  datatype Key =
    | VMName | Name | Uuid | OSName | Memory | CPUs | Cores | IpAddress | Parent
    | Status | Host | MaxCpu | MaxMem | Uptime | Template | State | Vmdks | Disks
    | Hardware | Vendor | Hypervisor | HostedOn

  /** How the value of one key is obtained from a response. */
  datatype Rule =
    | Read(path: Path, fallback: Value)     // `isset(path) ? path : fallback`
    | Fixed(constant: Value)                // a constant, whatever the response
    | CountAt(path: Path, fallback: Value)  // `isset(path) ? sizeof(path) : fallback`
    | NoKey                                 // the record has no such key

  function Apply(rule: Rule, v: Value): Value {
    match rule
    case Read(path, fallback) => if IsSet(v, path) then Get(v, path) else fallback
    case Fixed(c) => c
    case CountAt(path, fallback) => if IsSet(v, path) then Int(Count(Get(v, path))) else fallback
    case NoKey => Null
  }

  /** The paths `->a`, `->a->b` and `->a->b->c`. */
  function Down(a: string): Path { Then(Prop(a), Here) }
  function Down2(a: string, b: string): Path { Then(Prop(a), Down(b)) }
  function Down3(a: string, b: string, c: string): Path { Then(Prop(a), Down2(b, c)) }

  /** `->returnval->propSet[i]->val` followed by `rest`. */
  function PropValAt(i: nat, rest: Path): Path {
    Then(Prop("returnval"), Then(Prop("propSet"), Then(Elem(i), Then(Prop("val"), rest))))
  }

  /** `->returnval->propSet[i]->val`, the value of the i-th returned property. */
  function PropVal(i: nat): Path {
    PropValAt(i, Here)
  }

  /** `->returnval->propSet[i]->val` followed by `rest` is that path extended. */
  lemma PropValConcat(i: nat, rest: Path)
    ensures Concat(PropVal(i), rest) == PropValAt(i, rest)
  {
    var val := Then(Prop("val"), Here);
    var elem := Then(Elem(i), val);
    var propSet := Then(Prop("propSet"), elem);
    assert Concat(val, rest) == Then(Prop("val"), rest);
    assert Concat(elem, rest) == Then(Elem(i), Concat(val, rest));
    assert Concat(propSet, rest) == Then(Prop("propSet"), Concat(elem, rest));
  }

  /** `->returnval->obj->_`, the managed-object id of the response. */
  const ObjectName: Path := Down3("returnval", "obj", "_")

  /** `->returnval->propSet[13]->val->cpuPkg[0]->threadId` of a host response. */
  const ThreadIds: Path := PropValAt(13, Then(Prop("cpuPkg"), Then(Elem(0), Down("threadId"))))

  /** Where each key of a VM record comes from. */
  function VmRule(k: Key): Rule {
    match k
    case VMName => Read(ObjectName, Str(""))
    case Name => Read(PropValAt(3, Down("name")), Str(""))
    case OSName => Read(PropValAt(3, Down("guestFullName")), Str(""))
    case Uuid => Read(PropValAt(3, Down("uuid")), Str(""))
    case Memory => Read(PropValAt(3, Down2("hardware", "memoryMB")), Int(0))
    case CPUs => Read(PropValAt(3, Down2("hardware", "numCPU")), Str(""))
    case Cores => Read(PropValAt(3, Down2("hardware", "numCoresPerSocket")), Str(""))
    case IpAddress => Read(PropValAt(27, Down2("guest", "ipAddress")), Str(""))
    case Parent => Read(PropValAt(19, Down("_")), Str(""))
    case Status => Read(PropValAt(27, Down("overallStatus")), Str(""))
    case Host => Read(PropValAt(25, Down2("host", "type")), Str(""))
    case MaxCpu => Read(PropValAt(25, Down("maxCpuUsage")), Str(""))
    case MaxMem => Read(PropValAt(25, Down("maxMemoryUsage")), Str(""))
    case Uptime => Read(PropValAt(27, Down2("quickStats", "uptimeSeconds")), Str(""))
    case Template => Read(PropValAt(3, Down("template")), Str(""))
    case State => Read(PropValAt(25, Down("powerState")), Str(""))
    case Vmdks => Read(PropValAt(15, Down("file")), Arr([]))
    case Disks => Read(PropValAt(12, Down("disk")), Arr([]))
    case Hardware => Read(PropValAt(3, Down2("hardware", "device")), Str(""))
    case Vendor | Hypervisor | HostedOn => NoKey
  }

  /** Where each key of a host record comes from. */
  function HostRule(k: Key): Rule {
    match k
    case VMName => Read(ObjectName, Str(""))
    case Name => Read(PropVal(15), Str(""))
    case Uuid => Read(PropValAt(13, Down2("systemInfo", "uuid")), Str(""))
    case OSName => Fixed(Str("ESX"))
    case Memory => Read(PropValAt(22, Down2("hardware", "memorySize")), Int(0))
    case CPUs => Read(PropValAt(13, Down2("cpuInfo", "numCpuCores")), Str(""))
    case Cores => CountAt(ThreadIds, Str(""))
    case IpAddress => Fixed(Str(""))
    case Parent => Read(PropValAt(4, Down3("Event", "datacenter", "name")), Str(""))
    case Status => Read(PropValAt(22, Down("overallStatus")), Str(""))
    case Host => Fixed(Str(""))
    case MaxCpu => Read(PropValAt(22, Down2("quickStats", "overallCpuUsage")), Str(""))
    case MaxMem => Read(PropValAt(22, Down2("quickStats", "overallMemoryUsage")), Str(""))
    case Uptime => Read(PropValAt(22, Down2("quickStats", "uptime")), Str(""))
    case State => Read(PropValAt(22, Down2("runtime", "powerState")), Str(""))
    case Vendor => Read(PropValAt(13, Down2("systemInfo", "vendor")), Str(""))
    case Hypervisor => Read(PropValAt(3, Down2("product", "fullName")), Str(""))
    case Template | Vmdks | Disks | Hardware | HostedOn => NoKey
  }

  /** The keys of a VM record, in the order the array is built. */
  const VmKeys: seq<Key> :=
    [VMName, Name, Uuid, OSName, Memory, CPUs, Cores, IpAddress, Parent, Status,
     Host, MaxCpu, MaxMem, Uptime, Template, State, Vmdks, Disks, Hardware]

  /** The keys of a host record, in the order the array is built. */
  const HostKeys: seq<Key> :=
    [VMName, Name, Uuid, OSName, Memory, CPUs, Cores, IpAddress, Parent, Status,
     Host, MaxCpu, MaxMem, Uptime, State, Vendor, Hypervisor]

  /** The position of a key in a VM record; `|VmKeys|` for a key it lacks. */
  function VmSlot(k: Key): nat {
    match k
    case VMName => 0
    case Name => 1
    case Uuid => 2
    case OSName => 3
    case Memory => 4
    case CPUs => 5
    case Cores => 6
    case IpAddress => 7
    case Parent => 8
    case Status => 9
    case Host => 10
    case MaxCpu => 11
    case MaxMem => 12
    case Uptime => 13
    case Template => 14
    case State => 15
    case Vmdks => 16
    case Disks => 17
    case Hardware => 18
    case Vendor | Hypervisor | HostedOn => 19
  }

  /** The position of a key in a host record; `|HostKeys|` for a key it lacks. */
  function HostSlot(k: Key): nat {
    match k
    case VMName => 0
    case Name => 1
    case Uuid => 2
    case OSName => 3
    case Memory => 4
    case CPUs => 5
    case Cores => 6
    case IpAddress => 7
    case Parent => 8
    case Status => 9
    case Host => 10
    case MaxCpu => 11
    case MaxMem => 12
    case Uptime => 13
    case State => 14
    case Vendor => 15
    case Hypervisor => 16
    case Template | Vmdks | Disks | Hardware | HostedOn => 17
  }

  /** A normalised virtual machine: the values of its keys in `VmKeys` order, and
      the `HostedOn` key, which only the aggregation adds. */
  datatype VmRecord = VmRecord(values: seq<Value>, hostedOn: Option<string>)
  {
    /** `$data[k]`: a key the array does not hold reads as null. */
    function Field(k: Key): Value {
      if k == HostedOn then (if hostedOn.Some? then Str(hostedOn.value) else Null)
      else if VmSlot(k) < |values| then values[VmSlot(k)]
      else Null
    }
  }

  /** A normalised hypervisor host: the values of its keys in `HostKeys` order. */
  datatype HostRecord = HostRecord(values: seq<Value>)
  {
    /** `$hostData[k]`: a key the array does not hold reads as null. */
    function Field(k: Key): Value {
      if HostSlot(k) < |values| then values[HostSlot(k)] else Null
    }
  }

  /** The VM slots and `VmKeys` agree, and a key without a rule has no slot. */
  lemma VmSlotsMatchKeys(k: Key)
    ensures VmSlot(k) <= |VmKeys| && (VmSlot(k) < |VmKeys| ==> VmKeys[VmSlot(k)] == k)
    ensures VmSlot(k) < |VmKeys| <==> !VmRule(k).NoKey?
  {
  }

  /** The host slots and `HostKeys` agree, and a key without a rule has no slot. */
  lemma HostSlotsMatchKeys(k: Key)
    ensures HostSlot(k) <= |HostKeys| && (HostSlot(k) < |HostKeys| ==> HostKeys[HostSlot(k)] == k)
    ensures HostSlot(k) < |HostKeys| <==> !HostRule(k).NoKey?
  {
  }

  /** `extractRelevantData` on a response it does not die on (see `VmDies`): it
      builds the nineteen keys of `VmKeys`, each by its rule, and no `HostedOn`. */
  function ExtractVm(ret: Value): (r: VmRecord)
    ensures |r.values| == |VmKeys|
    ensures r.hostedOn == None
  {
    VmRecord(seq(|VmKeys|, i requires 0 <= i < |VmKeys| => Apply(VmRule(VmKeys[i]), ret)), None)
  }

  /** `extractRelevantHostData` on a response it does not die on (see
      `HostDies`): it builds the seventeen keys of `HostKeys`, each by its rule. */
  function ExtractHost(data: Value): (r: HostRecord)
    ensures |r.values| == |HostKeys|
  {
    HostRecord(seq(|HostKeys|, i requires 0 <= i < |HostKeys| => Apply(HostRule(HostKeys[i]), data)))
  }

  /** Each key of a VM record holds the value its rule reads from the response;
      a key without a rule, `HostedOn` included, reads as null. */
  lemma ExtractVmFollowsRules(ret: Value, k: Key)
    ensures ExtractVm(ret).Field(k) == Apply(VmRule(k), ret)
  {
    VmSlotsMatchKeys(k);
    if VmSlot(k) < |VmKeys| {
      assert ExtractVm(ret).values[VmSlot(k)] == Apply(VmRule(VmKeys[VmSlot(k)]), ret);
    }
  }

  /** Each key of a host record holds the value its rule reads from the response;
      a key without a rule reads as null. */
  lemma ExtractHostFollowsRules(data: Value, k: Key)
    ensures ExtractHost(data).Field(k) == Apply(HostRule(k), data)
  {
    HostSlotsMatchKeys(k);
    if HostSlot(k) < |HostKeys| {
      assert ExtractHost(data).values[HostSlot(k)] == Apply(HostRule(HostKeys[HostSlot(k)]), data);
    }
  }

  /** The fallback of a VM key: 0 for `Memory`, an empty list for `Vmdks` and
      `Disks`, the empty string for everything else. */
  function VmFallback(k: Key): Value {
    if k == Memory then Int(0)
    else if k == Vmdks || k == Disks then Arr([])
    else Str("")
  }

  /** Every VM key with a rule reads the response, falling back to `VmFallback`. */
  lemma VmRulesRead(k: Key)
    requires !VmRule(k).NoKey?
    ensures VmRule(k).Read? && VmRule(k).fallback == VmFallback(k)
  {
  }

  /** A VM key whose property is present holds that property's value; one whose
      property is absent holds its fallback, which is never null. */
  lemma VmFieldPresentOrDefault(ret: Value, k: Key)
    requires !VmRule(k).NoKey?
    ensures VmRule(k).Read?
    ensures IsSet(ret, VmRule(k).path) ==> ExtractVm(ret).Field(k) == Get(ret, VmRule(k).path)
    ensures !IsSet(ret, VmRule(k).path) ==> ExtractVm(ret).Field(k) == VmFallback(k)
    ensures ExtractVm(ret).Field(k) != Null
  {
    ExtractVmFollowsRules(ret, k);
    VmRulesRead(k);
  }

  /** The VM keys read from inside the configuration at position 3. */
  const ConfigKeys: set<Key> := {Name, OSName, Uuid, Memory, CPUs, Cores, Template, Hardware}

  /** Where below `->returnval->propSet[3]->val` a configuration key is read. */
  function ConfigRest(k: Key): Path {
    match k
    case Name => Down("name")
    case OSName => Down("guestFullName")
    case Uuid => Down("uuid")
    case Memory => Down2("hardware", "memoryMB")
    case CPUs => Down2("hardware", "numCPU")
    case Cores => Down2("hardware", "numCoresPerSocket")
    case Template => Down("template")
    case Hardware => Down2("hardware", "device")
    case _ => Here
  }

  /** Each configuration key is read at `ConfigRest` below position 3. */
  lemma ConfigRules(k: Key)
    requires k in ConfigKeys
    ensures VmRule(k) == Read(PropValAt(3, ConfigRest(k)), VmFallback(k))
  {
  }

  /** A VM key read from inside the configuration at position 3 falls back
      when that configuration is missing. This is the record's content on a
      response no read dies on; when `propSet` is an object the reads die instead
      (`VmDiesIff`), and no record is produced. */
  lemma ConfigKeyDefaults(ret: Value, k: Key)
    requires !IsSet(ret, PropVal(3))
    requires k in ConfigKeys
    ensures ExtractVm(ret).Field(k) == VmFallback(k)
  {
    ConfigRules(k);
    PropValConcat(3, ConfigRest(k));
    UnsetPrefix(ret, PropVal(3), ConfigRest(k));
    VmFieldPresentOrDefault(ret, k);
  }

  /** When the response has no configuration at position 3 (or is too short to
      have one), every key read from it falls back together. As above, this is
      the record's content only on a response no read dies on. */
  lemma MissingConfigDefaults(ret: Value)
    requires !IsSet(ret, PropVal(3))
    ensures forall k :: k in ConfigKeys ==> ExtractVm(ret).Field(k) == VmFallback(k)
  {
    forall k | k in ConfigKeys
      ensures ExtractVm(ret).Field(k) == VmFallback(k)
    {
      ConfigKeyDefaults(ret, k);
    }
  }

  /** A VM counts as a template exactly when the raw template property is the
      boolean `true`; a missing template property defaults to the empty string. */
  lemma TemplateFlag(ret: Value)
    ensures ExtractVm(ret).Field(Template) == Bool(true) <==> Get(ret, VmRule(Template).path) == Bool(true)
    ensures !IsSet(ret, VmRule(Template).path) ==> ExtractVm(ret).Field(Template) == Str("")
  {
    ExtractVmFollowsRules(ret, Template);
  }

  /** A VM's `Name` cannot be echoed exactly when the raw name property is an
      object; a missing name reads as '', which converts. */
  lemma NameEchoDiesIff(ret: Value)
    ensures ToStringDies(ExtractVm(ret).Field(Name)) <==> Get(ret, VmRule(Name).path).Obj?
  {
    VmFieldPresentOrDefault(ret, Name);
  }

  /** `OSName` of a host is always "ESX", and `IpAddress` and `Host` are always
      empty, whatever the response holds. */
  lemma HostConstants(data: Value)
    ensures ExtractHost(data).Field(OSName) == Str("ESX")
    ensures ExtractHost(data).Field(IpAddress) == Str("")
    ensures ExtractHost(data).Field(Host) == Str("")
  {
    ExtractHostFollowsRules(data, OSName);
    ExtractHostFollowsRules(data, IpAddress);
    ExtractHostFollowsRules(data, Host);
  }

  /** A host's `Cores` is the number of thread ids of its first CPU package when
      that list is present, and the empty string otherwise. A single CPU package
      that the SOAP decoding left as an object instead of a one-element list
      cannot be indexed with `[0]`: the extraction dies. */
  lemma HostCoresCountThreads(data: Value)
    ensures forall ids :: Get(data, ThreadIds) == Arr(ids) ==> ExtractHost(data).Field(Cores) == Int(|ids|)
    ensures !IsSet(data, ThreadIds) ==> ExtractHost(data).Field(Cores) == Str("")
    ensures Get(data, CpuPackages).Obj? ==> HostDies(data)
  {
    ExtractHostFollowsRules(data, Cores);
    HostDiesIff(data);
  }

  /** The fallback of a host key read from the response: 0 for `Memory`, the
      empty string for the rest. */
  lemma HostReadFallback(k: Key)
    requires HostRule(k).Read?
    ensures HostRule(k).fallback == if k == Memory then Int(0) else Str("")
  {
  }

  /** A host key read from the response holds the property's value when present
      and its fallback otherwise: 0 for `Memory`, the empty string for the rest. */
  lemma HostFieldPresentOrDefault(data: Value, k: Key)
    requires HostRule(k).Read?
    ensures IsSet(data, HostRule(k).path) ==> ExtractHost(data).Field(k) == Get(data, HostRule(k).path)
    ensures !IsSet(data, HostRule(k).path) ==>
      ExtractHost(data).Field(k) == if k == Memory then Int(0) else Str("")
  {
    ExtractHostFollowsRules(data, k);
    HostReadFallback(k);
  }

  // ---------------------------------------------------------------------------
  // Reads that stop the script
  // ---------------------------------------------------------------------------

  /** `->returnval->propSet`, the list of returned properties. */
  const PropSet: Path := Down2("returnval", "propSet")

  /** `->returnval->propSet[13]->val->cpuPkg`, the CPU packages of a host. */
  const CpuPackages: Path := PropValAt(13, Down("cpuPkg"))

  /** Whether evaluating a rule on `v` dies: its read indexes an object. */
  predicate RuleDies(rule: Rule, v: Value) {
    match rule
    case Read(path, _) => Dies(v, path)
    case CountAt(path, _) => Dies(v, path)
    case _ => false
  }

  /** Whether `extractRelevantData` stops the script on `ret`: one of its reads
      indexes an object. */
  predicate VmDies(ret: Value) {
    exists i :: 0 <= i < |VmKeys| && RuleDies(VmRule(VmKeys[i]), ret)
  }

  /** Whether `extractRelevantHostData` stops the script on `data`. */
  predicate HostDies(data: Value) {
    exists i :: 0 <= i < |HostKeys| && RuleDies(HostRule(HostKeys[i]), data)
  }

  /** A path whose only index step, if any, is the position in
      `->returnval->propSet`. */
  predicate IndexesPropSetOnly(p: Path) {
    PropsOnly(p) ||
    (p.Then? && p.step == Prop("returnval") && p.rest.Then? && p.rest.step == Prop("propSet") &&
     p.rest.rest.Then? && PropsOnly(p.rest.rest.rest))
  }

  /** A rule whose read, if it has one, indexes only `propSet`. */
  predicate RuleIndexesPropSetOnly(rule: Rule) {
    match rule
    case Read(path, _) => IndexesPropSetOnly(path)
    case CountAt(path, _) => IndexesPropSetOnly(path)
    case _ => true
  }

  /** Every VM read indexes `propSet` and nothing else. */
  lemma VmRulesIndexPropSetOnly(k: Key)
    ensures RuleIndexesPropSetOnly(VmRule(k))
  {
  }

  /** Every host read but the thread-id count indexes `propSet` and nothing else. */
  lemma HostRulesIndexPropSetOnly(k: Key)
    requires k != Cores
    ensures RuleIndexesPropSetOnly(HostRule(k))
  {
  }

  /** A read that indexes only `propSet` dies only when `propSet` is an object. */
  lemma PropSetOnlyDies(v: Value, p: Path)
    requires IndexesPropSetOnly(p)
    ensures Dies(v, p) ==> Get(v, PropSet).Obj?
  {
    if PropsOnly(p) {
      PropsOnlyNeverDies(v, p);
    } else {
      var properties := At(At(v, p.step), p.rest.step);
      assert Get(v, PropSet) == properties;
      PropsOnlyNeverDies(At(properties, p.rest.rest.step), p.rest.rest.rest);
      assert Dies(v, p) == Dies(At(v, p.step), p.rest) == Dies(properties, p.rest.rest);
    }
  }

  /** When `propSet` is an object, every read of a returned property dies. */
  lemma PropSetObjectDies(v: Value, i: nat, rest: Path)
    requires Get(v, PropSet).Obj?
    ensures Dies(v, PropValAt(i, rest))
  {
  }

  /** Reading the thread ids dies exactly when `propSet` or the CPU packages are
      an object. */
  lemma ThreadIdsDie(data: Value)
    ensures Dies(data, ThreadIds) <==> Get(data, PropSet).Obj? || Get(data, CpuPackages).Obj?
  {
  }

  /** `extractRelevantData` dies exactly when `propSet` is an object, as the
      SOAP decoding leaves a list of one property: every other read is a
      property read or an index into `propSet`. */
  lemma VmDiesIff(ret: Value)
    ensures VmDies(ret) <==> Get(ret, PropSet).Obj?
  {
    if VmDies(ret) {
      var i :| 0 <= i < |VmKeys| && RuleDies(VmRule(VmKeys[i]), ret);
      VmRulesIndexPropSetOnly(VmKeys[i]);
      PropSetOnlyDies(ret, VmRule(VmKeys[i]).path);
    }
    if Get(ret, PropSet).Obj? {
      PropSetObjectDies(ret, 3, Down("name"));
      assert RuleDies(VmRule(VmKeys[1]), ret);
    }
  }

  /** `extractRelevantHostData` dies exactly when `propSet` is an object or the
      host's CPU packages are a single object rather than a list. */
  lemma HostDiesIff(data: Value)
    ensures HostDies(data) <==> Get(data, PropSet).Obj? || Get(data, CpuPackages).Obj?
  {
    ThreadIdsDie(data);
    if HostDies(data) {
      var i :| 0 <= i < |HostKeys| && RuleDies(HostRule(HostKeys[i]), data);
      if HostKeys[i] != Cores {
        HostRulesIndexPropSetOnly(HostKeys[i]);
        PropSetOnlyDies(data, HostRule(HostKeys[i]).path);
      }
    }
    if Get(data, PropSet).Obj? || Get(data, CpuPackages).Obj? {
      assert RuleDies(HostRule(HostKeys[6]), data);
    }
  }
}

=== FILE: php.dfy ===
/**
 This module models the loosely typed PHP values that the SOAP extension hands back
 for a property-retrieval response, and the `isset($x->a->b[3]->c)` reads the
 inventory client performs on them (PHP 5 semantics).
 */
module Php {

  /** A decoded PHP value. `Null` stands both for PHP's null and for a property or
      index that is not there: `isset` cannot tell the two apart. Objects keep their
      members in insertion order, as PHP does. */
  datatype Value =
    | Null
    | Bool(boolean: bool)
    | Int(number: int)
    | Str(text: string)
    | Arr(items: seq<Value>)
    | Obj(members: seq<(string, Value)>)

  /** One step of an access path: `->name` or `[index]`. */
  datatype Step = Prop(name: string) | Elem(index: nat)

  /** An access path such as `->returnval->propSet[3]->val`, read left to right. */
  datatype Path = Here | Then(step: Step, rest: Path)

  /** The path `p` followed by the path `q`. */
  function Concat(p: Path, q: Path): Path {
    match p
    case Here => q
    case Then(s, rest) => Then(s, Concat(rest, q))
  }

  /** The member of an object called `name`, or `Null` when there is none. */
  function Member(members: seq<(string, Value)>, name: string): Value {
    if members == [] then Null
    else if members[0].0 == name then members[0].1
    else Member(members[1..], name)
  }

  /** One access step. Reading a property of something that is not an object
      yields null, and so does an index of null, of a number or boolean, or past
      the end of a list or string; `isset` sees null there. An index of a string
      is the one-character string at that offset. An index of an object does not
      yield anything in PHP (see `Dies`); there the step reads as null, and only
      paths that do not die are read for their value. */
  function At(v: Value, s: Step): Value {
    match s
    case Prop(name) => if v.Obj? then Member(v.members, name) else Null
    case Elem(i) =>
      if v.Arr? && i < |v.items| then v.items[i]
      else if v.Str? && i < |v.text| then Str([v.text[i]])
      else Null
  }

  /** An index of a string never dies: it finds the character at that offset, or
      nothing past the end, and a property read from what it finds is never set.
      A `propSet` the decoding left as a string therefore fails the `isset` guards
      on `propSet[i]->val` instead of stopping the script. */
  lemma StringOffsets(t: string, i: nat, name: string)
    ensures i < |t| ==> At(Str(t), Elem(i)) == Str([t[i]])
    ensures i >= |t| ==> At(Str(t), Elem(i)) == Null
    ensures !Dies(Str(t), Then(Elem(i), Then(Prop(name), Here)))
    ensures !IsSet(Str(t), Then(Elem(i), Then(Prop(name), Here)))
  {
    var found := At(Str(t), Elem(i));
    var tail := Then(Prop(name), Here);
    assert found.Str? || found.Null?;
    assert Dies(found, tail) == Dies(At(found, Prop(name)), Here);
    assert Get(found, tail) == Get(At(found, Prop(name)), Here) == Null;
  }

  /** The value at the end of an access path. */
  function Get(v: Value, path: Path): Value
    decreases path
  {
    match path
    case Here => v
    case Then(s, rest) => Get(At(v, s), rest)
  }

  /** Whether reading along `path` applies `[index]` to an object. PHP does not
      read that as null: it stops the script ("Cannot use object of type stdClass
      as array"), inside `isset` as well. PHP 5 raises a fatal error; PHP 7 and
      later throw an `Error`, which a `catch (Exception $e)` does not catch. */
  predicate Dies(v: Value, path: Path)
    decreases path
  {
    match path
    case Here => false
    case Then(s, rest) => (s.Elem? && v.Obj?) || Dies(At(v, s), rest)
  }

  /** A path made of property steps only, such as `->returnval->obj->_`. */
  predicate PropsOnly(path: Path) {
    match path
    case Here => true
    case Then(s, rest) => s.Prop? && PropsOnly(rest)
  }

  /** PHP's `isset` on an access path: every step exists and the value is not null. */
  predicate IsSet(v: Value, path: Path) {
    Get(v, path) != Null
  }

  /** PHP 5's `count` (alias `sizeof`): the length of a list, 0 for null and 1 for
      any other value, objects included. */
  function Count(v: Value): nat {
    match v
    case Arr(items) => |items|
    case Null => 0
    case _ => 1
  }

  /** Whether converting `v` to a string, as `echo` and `.` do, stops the script:
      an object without `__toString` cannot be converted ("Object of class
      stdClass could not be converted to string"; a fatal error in PHP 5, an
      `Error` from PHP 7.4 on). Null, booleans, numbers and strings convert, and
      a list becomes "Array" with a notice. */
  predicate ToStringDies(v: Value) {
    v.Obj?
  }

  /** The values a `foreach` visits: the elements of a list, the member values of an
      object, and nothing at all for null or a scalar (PHP 5 warns and skips). */
  function ForeachValues(v: Value): seq<Value> {
    match v
    case Arr(items) => items
    case Obj(members) => seq(|members|, k requires 0 <= k < |members| => members[k].1)
    case _ => []
  }

  /** Nothing can be read out of a missing value. */
  lemma {:induction false} GetOfNull(path: Path)
    ensures Get(Null, path) == Null
  {
    match path
    case Here =>
    case Then(_, rest) => GetOfNull(rest);
  }

  /** Reading along `p` then `q` is reading `p`, then `q` from what was found. */
  lemma {:induction false} GetConcat(v: Value, p: Path, q: Path)
    ensures Get(v, Concat(p, q)) == Get(Get(v, p), q)
    decreases p
  {
    match p
    case Here =>
    case Then(s, rest) => GetConcat(At(v, s), rest, q);
  }

  /** A path without index steps never dies, whatever it is read from. */
  lemma {:induction false} PropsOnlyNeverDies(v: Value, path: Path)
    requires PropsOnly(path)
    ensures !Dies(v, path)
    decreases path
  {
    match path
    case Here =>
    case Then(s, rest) => PropsOnlyNeverDies(At(v, s), rest);
  }

  /** A read that dies finds nothing beyond the object it indexed. */
  lemma {:induction false} DyingReadIsNull(v: Value, path: Path)
    requires Dies(v, path)
    ensures Get(v, path) == Null
    decreases path
  {
    match path
    case Here =>
    case Then(s, rest) =>
      if s.Elem? && v.Obj? {
        GetOfNull(rest);
      } else {
        DyingReadIsNull(At(v, s), rest);
      }
  }

  /** `isset` on a chain is false as soon as a prefix of the chain is missing. */
  lemma UnsetPrefix(v: Value, p: Path, q: Path)
    requires !IsSet(v, p)
    ensures !IsSet(v, Concat(p, q))
  {
    GetConcat(v, p, q);
    GetOfNull(q);
  }
}

=== FILE: vsphere.dfy ===
/**
 The inventory client's aggregation, `getAllVmsFromESXHosts`: a sequential walk
 over the configured ESX host names that fetches each host's properties, fetches
 and normalises every VM the host lists, keeps the VMs that are not templates
 (stamped with the host's name) and then appends the host's own record.

 The two remote calls are parameters (`Remote`): with the SOAP transport out of
 the picture they behave as functions of the remote state that either answer,
 throw or die. The object's two accumulators are never reset, so every call
 appends to what earlier calls gathered.
 */
module Vsphere {
  import opened Wrappers
  import opened Php
  import opened Extraction

  /** What ends a walk early: an exception (a SOAP fault or a transport error),
      which the call catches, or an error that stops the script, which it
      cannot catch. */
  datatype Fault = Thrown(message: string) | Fatal(message: string)

  /** The fatal error of indexing an object with `[i]`. */
  const IndexFatal: Fault := Fatal("Cannot use object of type stdClass as array")

  /** The fatal error of converting an object to a string. */
  const EchoFatal: Fault := Fatal("Object of class stdClass could not be converted to string")

  /** The remote calls: `getHostProperties` (name lookup followed by a property
      retrieval for a host system) and `getPropertyByMoRefID` (a property
      retrieval for one VM reference). A `Fatal` answer is a call that stops the
      script rather than throwing. */
  datatype Remote = Remote(
    hostProperties: string -> Result<Value, Fault>,
    vmProperties: Value -> Result<Value, Fault>)

  /** The state of a `Vsphere` object that the aggregation touches: the
      configured host names and the two accumulators. */
  datatype Client = Client(esxHosts: seq<string>, serverData: seq<VmRecord>, hostData: seq<HostRecord>)

  /** The array `getAllVmsFromESXHosts` returns on success. */
  datatype Snapshot = Snapshot(hosts: seq<HostRecord>, servers: seq<VmRecord>)

  /** How a call ends: it returns the gathered data, it returns PHP's `false`
      after catching an exception, or the script dies and the call returns
      nothing. */
  datatype Outcome = Returned(value: Snapshot) | ReturnedFalse | Died

  /** The state after a call, and how the call ended. */
  datatype Call = Call(client: Client, outcome: Outcome)

  /** How a call ends on a fault: an exception is caught and the call returns
      `false`; a fatal error ends the script. */
  function EndedBy(f: Fault): (o: Outcome)
    ensures o.Died? <==> f.Fatal?
    ensures !o.Returned?
  {
    if f.Fatal? then Died else ReturnedFalse
  }

  /** A freshly constructed object: no hosts configured, nothing gathered. */
  const Fresh: Client := Client([], [], [])

  /** `setEsxHosts`: replaces the host list and leaves everything gathered so
      far in place. */
  function SetEsxHosts(c: Client, hosts: seq<string>): (r: Client)
    ensures r.esxHosts == hosts
    ensures r.hostData == c.hostData && r.serverData == c.serverData
  {
    c.(esxHosts := hosts)
  }

  /** `->returnval->propSet[27]->val->ManagedObjectReference` of a host response. */
  const VmListPath: Path := PropValAt(27, Down("ManagedObjectReference"))

  /** The VM references a host response lists, in the order `foreach` visits them. */
  function VmRefs(props: Value): seq<Value> {
    ForeachValues(Get(props, VmListPath))
  }

  /** `$data['Template'] !== true`: only the boolean `true` marks a template. */
  predicate Kept(rec: VmRecord) {
    rec.Field(Template) != Bool(true)
  }

  /** `$data['HostedOn'] = $esxHost`. */
  function Stamp(rec: VmRecord, host: string): VmRecord {
    rec.(hostedOn := Some(host))
  }

  // ---------------------------------------------------------------------------
  // The walk, step by step as the source performs it
  // ---------------------------------------------------------------------------

  /** `getPropertyByMoRefID`, `extractRelevantData` and the progress line that
      echoes the VM's `Name`: the normalised record of one VM reference, what
      the fetch throws, or the fatal error of an extraction or an echo that
      dies. */
  function Fetch(remote: Remote, ref: Value): Result<VmRecord, Fault> {
    match remote.vmProperties(ref)
    case Ok(ret) =>
      if VmDies(ret) then Err(IndexFatal)
      else if ToStringDies(ExtractVm(ret).Field(Name)) then Err(EchoFatal)
      else Ok(ExtractVm(ret))
    case Err(e) => Err(e)
  }

  /** A VM's property answer that gives a record: it arrived, and neither its
      extraction nor the echo of its name dies. */
  predicate Yields(answer: Result<Value, Fault>) {
    answer.Ok? && !VmDies(answer.value) && !ToStringDies(ExtractVm(answer.value).Field(Name))
  }

  /** The fetch outcomes of a host's VM references, in order. */
  function Fetches(remote: Remote, refs: seq<Value>): seq<Result<VmRecord, Fault>> {
    seq(|refs|, j requires 0 <= j < |refs| => Fetch(remote, refs[j]))
  }

  /** The inner `foreach`, given what fetching and normalising each VM
      reference gives, in order: it appends each kept record, stamped, to
      `servers`, and stops at the first fetch that throws or dies. Records
      appended before that stay appended. */
  function WalkVms(host: string, fetched: seq<Result<VmRecord, Fault>>, servers: seq<VmRecord>)
    : (seq<VmRecord>, Option<Fault>)
    decreases |fetched|
  {
    if fetched == [] then (servers, None)
    else
      match fetched[0]
      case Err(e) => (servers, Some(e))
      case Ok(rec) =>
        WalkVms(host, fetched[1..], if Kept(rec) then servers + [Stamp(rec, host)] else servers)
  }

  /** The outer `foreach`: for each host in order, fetches its properties, reads
      its VM list, walks its VMs, then appends its host record; stops at the
      first throw or fatal error. */
  function WalkHosts(remote: Remote, hosts: seq<string>, acc: Snapshot): (Snapshot, Option<Fault>)
    decreases |hosts|
  {
    if hosts == [] then (acc, None)
    else
      match remote.hostProperties(hosts[0])
      case Err(e) => (acc, Some(e))
      case Ok(props) =>
        if Dies(props, VmListPath) then (acc, Some(IndexFatal))
        else
          var walked := WalkVms(hosts[0], Fetches(remote, VmRefs(props)), acc.servers);
          if walked.1.Some? then (acc.(servers := walked.0), walked.1)
          else if HostDies(props) then (acc.(servers := walked.0), Some(IndexFatal))
          else WalkHosts(remote, hosts[1..], Snapshot(acc.hosts + [ExtractHost(props)], walked.0))
  }

  /** `getAllVmsFromESXHosts` as a function of the object state: the accumulators
      keep whatever was appended, and the call returns everything gathered so
      far, or ends as its fault dictates. */
  function Collect(c: Client, remote: Remote): Call {
    var walked := WalkHosts(remote, c.esxHosts, Snapshot(c.hostData, c.serverData));
    var c' := c.(hostData := walked.0.hosts, serverData := walked.0.servers);
    Call(c', if walked.1.None? then Returned(walked.0) else EndedBy(walked.1.value))
  }

  /** `getAllVmsFromESXHosts` with its two nested loops: it performs exactly the
      walk `Collect` describes, including the early `return false` and the fatal
      errors that leave partial appends in the accumulators. */
  method GetAllVmsFromEsxHosts(c: Client, remote: Remote) returns (call: Call)
    ensures call == Collect(c, remote)
    ensures call.client.esxHosts == c.esxHosts
    ensures call.outcome.Returned? ==>
      call.outcome.value == Snapshot(call.client.hostData, call.client.serverData)
  {
    var hostData := c.hostData;
    var serverData := c.serverData;
    var i := 0;
    while i < |c.esxHosts|
      invariant 0 <= i <= |c.esxHosts|
      invariant WalkHosts(remote, c.esxHosts[i..], Snapshot(hostData, serverData))
        == WalkHosts(remote, c.esxHosts, Snapshot(c.hostData, c.serverData))
    {
      var esxHost := c.esxHosts[i];
      assert c.esxHosts[i..][0] == esxHost;
      assert c.esxHosts[i..][1..] == c.esxHosts[i + 1..];
      var answer := remote.hostProperties(esxHost);
      if answer.Err? {
        return Call(c.(hostData := hostData, serverData := serverData), EndedBy(answer.error));
      }
      var properties := answer.value;
      if Dies(properties, VmListPath) {
        return Call(c.(hostData := hostData, serverData := serverData), Died);
      }
      var refs := VmRefs(properties);
      ghost var fetched := Fetches(remote, refs);
      ghost var before := serverData;
      var j := 0;
      while j < |refs|
        invariant 0 <= j <= |refs|
        invariant WalkVms(esxHost, fetched[j..], serverData) == WalkVms(esxHost, fetched, before)
      {
        assert fetched[j..][0] == Fetch(remote, refs[j]);
        assert fetched[j..][1..] == fetched[j + 1..];
        var result := remote.vmProperties(refs[j]);
        if result.Err? {
          return Call(c.(hostData := hostData, serverData := serverData), EndedBy(result.error));
        }
        if VmDies(result.value) {
          return Call(c.(hostData := hostData, serverData := serverData), Died);
        }
        var data := ExtractVm(result.value);
        if ToStringDies(data.Field(Name)) {
          return Call(c.(hostData := hostData, serverData := serverData), Died);
        }
        if Kept(data) {
          serverData := serverData + [Stamp(data, esxHost)];
        }
        j := j + 1;
      }
      if HostDies(properties) {
        return Call(c.(hostData := hostData, serverData := serverData), Died);
      }
      hostData := hostData + [ExtractHost(properties)];
      i := i + 1;
    }
    return Call(c.(hostData := hostData, serverData := serverData), Returned(Snapshot(hostData, serverData)));
  }

  // ---------------------------------------------------------------------------
  // A declarative account of the walk
  // ---------------------------------------------------------------------------

  /** The records a host contributes for the normalised VMs `recs`: the
      non-templates, in order, each stamped with the host's name. */
  function Admit(host: string, recs: seq<VmRecord>): seq<VmRecord> {
    if recs == [] then []
    else (if Kept(recs[0]) then [Stamp(recs[0], host)] else []) + Admit(host, recs[1..])
  }

  /** What the VM loop of a host contributes given its fetch outcomes: the kept
      records fetched before the first fault, and that fault if there is one. */
  function Contribution(host: string, rs: seq<Result<VmRecord, Fault>>): (seq<VmRecord>, Option<Fault>) {
    var n := FirstErr(rs);
    (Admit(host, Oks(rs[..n])), if n < |rs| then Some(rs[n].error) else None)
  }

  /** What visiting one host amounts to: either it completes, giving its host
      record and its kept VMs, or it stops on a fault, leaving the kept VMs
      fetched before the fault and no host record. */
  datatype Visit =
    | Completed(record: HostRecord, vms: seq<VmRecord>)
    | Stopped(vms: seq<VmRecord>, fault: Fault)

  /** The visit of one host: its property fetch, the read of its VM list, its
      VM loop and its host record. */
  function VisitHost(remote: Remote, host: string): Visit {
    match remote.hostProperties(host)
    case Err(e) => Stopped([], e)
    case Ok(props) =>
      if Dies(props, VmListPath) then Stopped([], IndexFatal)
      else
        var contribution := Contribution(host, Fetches(remote, VmRefs(props)));
        if contribution.1.Some? then Stopped(contribution.0, contribution.1.value)
        else if HostDies(props) then Stopped(contribution.0, IndexFatal)
        else Completed(ExtractHost(props), contribution.0)
  }

  /** A host whose property fetch, VM fetches and extractions all go through. */
  predicate HostCompletes(remote: Remote, host: string) {
    VisitHost(remote, host).Completed?
  }

  /** The visits of the configured hosts, in order. */
  function Visits(remote: Remote, hosts: seq<string>): seq<Visit> {
    seq(|hosts|, i requires 0 <= i < |hosts| => VisitHost(remote, hosts[i]))
  }

  /** The number of visits that complete before the first one that stops. */
  function FirstStop(visits: seq<Visit>): (n: nat)
    ensures n <= |visits|
    ensures forall i :: 0 <= i < n ==> visits[i].Completed?
    ensures n < |visits| ==> visits[n].Stopped?
  {
    if visits == [] || visits[0].Stopped? then 0 else 1 + FirstStop(visits[1..])
  }

  /** The number of hosts the walk reaches: those that complete and the first
      one that stops, if any. */
  function Reach(visits: seq<Visit>): (k: nat)
    ensures k <= |visits|
  {
    var n := FirstStop(visits);
    if n < |visits| then n + 1 else n
  }

  /** The host records of the visits that complete, in order. */
  function Records(visits: seq<Visit>): seq<HostRecord> {
    if visits == [] then []
    else (if visits[0].Completed? then [visits[0].record] else []) + Records(visits[1..])
  }

  /** The VM records of the visits, visit after visit. */
  function VisitedVms(visits: seq<Visit>): seq<VmRecord> {
    if visits == [] then [] else visits[0].vms + VisitedVms(visits[1..])
  }

  /** What the outer walk appends to `acc`, stated without the walk: every
      reached host appends its VMs and, when it completes, its host record; the
      first host that stops supplies the fault. */
  function Declared(visits: seq<Visit>, acc: Snapshot): (Snapshot, Option<Fault>) {
    var n := FirstStop(visits);
    var reached := visits[..Reach(visits)];
    (Snapshot(acc.hosts + Records(reached), acc.servers + VisitedVms(reached)),
     if n < |visits| then Some(visits[n].fault) else None)
  }
}

=== FILE: vsphere_properties.dfy ===
/**
 What a call of `getAllVmsFromESXHosts` does, stated against the declarative
 account of the walk: host records one per configured host and in order, VM
 records filtered and stamped, partial appends when something throws or dies,
 and accumulation across calls.
 */
module VsphereProperties {
  import opened Wrappers
  import opened Php
  import opened Extraction
  import opened Vsphere

  // ---------------------------------------------------------------------------
  // Filtering and stamping
  // ---------------------------------------------------------------------------

  /** A record is admitted for a host exactly when it is some non-template of
      the input stamped with that host; every admitted record is a
      non-template carrying the host's name. */
  lemma {:induction false} AdmitMembers(host: string, recs: seq<VmRecord>, x: VmRecord)
    ensures x in Admit(host, recs) <==>
      exists i :: 0 <= i < |recs| && Kept(recs[i]) && x == Stamp(recs[i], host)
    ensures x in Admit(host, recs) ==> x.hostedOn == Some(host) && Kept(x)
  {
    if recs != [] {
      AdmitMembers(host, recs[1..], x);
      if x in Admit(host, recs[1..]) {
        var i :| 0 <= i < |recs[1..]| && Kept(recs[1..][i]) && x == Stamp(recs[1..][i], host);
        assert recs[i + 1] == recs[1..][i];
      }
      if exists i :: 0 <= i < |recs| && Kept(recs[i]) && x == Stamp(recs[i], host) {
        var i :| 0 <= i < |recs| && Kept(recs[i]) && x == Stamp(recs[i], host);
        if i > 0 {
          assert recs[1..][i - 1] == recs[i];
        }
      }
    }
  }

  /** Admitting a concatenation admits each part in turn: the order of VMs is
      kept. */
  lemma {:induction false} AdmitAppend(host: string, a: seq<VmRecord>, b: seq<VmRecord>)
    ensures Admit(host, a + b) == Admit(host, a) + Admit(host, b)
  {
    if a != [] {
      assert (a + b)[0] == a[0];
      assert (a + b)[1..] == a[1..] + b;
      AdmitAppend(host, a[1..], b);
    } else {
      assert a + b == b;
    }
  }

  /** A stamped record is admitted exactly when the record is not a template. */
  lemma AdmittedIffKept(host: string, recs: seq<VmRecord>, j: nat)
    requires j < |recs|
    ensures Stamp(recs[j], host) in Admit(host, recs) <==> Kept(recs[j])
  {
    AdmitMembers(host, recs, Stamp(recs[j], host));
    if Stamp(recs[j], host) in Admit(host, recs) {
      var i :| 0 <= i < |recs| && Kept(recs[i]) && Stamp(recs[j], host) == Stamp(recs[i], host);
      assert recs[i].values == recs[j].values;
    }
  }

  /** With no templates among them, every record is admitted, stamped, in the
      order given. */
  lemma {:induction false} AdmitKeepsOrder(host: string, recs: seq<VmRecord>)
    requires forall i :: 0 <= i < |recs| ==> Kept(recs[i])
    ensures Admit(host, recs) == seq(|recs|, i requires 0 <= i < |recs| => Stamp(recs[i], host))
  {
    if recs != [] {
      AdmitKeepsOrder(host, recs[1..]);
    }
  }

  /** A normalised VM is kept exactly when its `config.template` is not the
      boolean `true`; a VM without that property reads as '' and is kept. */
  lemma KeptIffNotTemplate(ret: Value)
    ensures Kept(ExtractVm(ret)) <==> Get(ret, VmRule(Template).path) != Bool(true)
    ensures !IsSet(ret, VmRule(Template).path) ==> Kept(ExtractVm(ret))
  {
    TemplateFlag(ret);
  }

  /** Stamping sets `HostedOn` to the host's name and changes no other field. */
  lemma StampSetsHostedOn(rec: VmRecord, host: string, k: Key)
    ensures Stamp(rec, host).Field(HostedOn) == Str(host)
    ensures k != HostedOn ==> Stamp(rec, host).Field(k) == rec.Field(k)
  {
  }

  /** The references a host lists are what `foreach` visits at
      `propSet[27]->val->ManagedObjectReference`: the elements of a list, the
      member values of an object, and nothing for null or a scalar. */
  lemma VmRefsShape(props: Value)
    ensures var listed := Get(props, VmListPath);
      (listed.Arr? ==> VmRefs(props) == listed.items) &&
      (listed.Obj? ==>
         |VmRefs(props)| == |listed.members| &&
         forall k :: 0 <= k < |listed.members| ==> VmRefs(props)[k] == listed.members[k].1) &&
      (!listed.Arr? && !listed.Obj? ==> VmRefs(props) == [])
  {
  }

  /** A host with one VM, whose reference the SOAP decoding leaves as an object
      with an id and a type, lists two references: the id and the type name.
      Each is fetched as if it named a VM. */
  lemma OneVmReferenceObject(props: Value)
    requires Get(props, VmListPath) == Obj([("_", Str("vm-12")), ("type", Str("VirtualMachine"))])
    ensures VmRefs(props) == [Str("vm-12"), Str("VirtualMachine")]
  {
    VmRefsShape(props);
  }

  /** A VM whose name property is an object stops the script on the progress
      line that echoes it, before the template test: the fetch ends in the
      conversion error, whether or not the VM is a template. */
  lemma ObjectNameDies(remote: Remote, ref: Value)
    requires remote.vmProperties(ref).Ok? && !VmDies(remote.vmProperties(ref).value)
    requires Get(remote.vmProperties(ref).value, VmRule(Name).path).Obj?
    ensures Fetch(remote, ref) == Err(EchoFatal)
  {
    NameEchoDiesIff(remote.vmProperties(ref).value);
  }

  // ---------------------------------------------------------------------------
  // The inner walk
  // ---------------------------------------------------------------------------

  /** The contribution of a host's VM loop, taken apart at the first fetch. */
  lemma ContributionFirst(host: string, rs: seq<Result<VmRecord, Fault>>)
    requires rs != []
    ensures Contribution(host, rs) ==
      if rs[0].Err? then ([], Some(rs[0].error))
      else (Admit(host, [rs[0].value]) + Contribution(host, rs[1..]).0, Contribution(host, rs[1..]).1)
  {
    var n := FirstErr(rs);
    if rs[0].Err? {
      assert rs[..n] == [];
    } else {
      var m := FirstErr(rs[1..]);
      assert n == 1 + m;
      var rest := Oks(rs[1..][..m]);
      assert Oks(rs[..n]) == [rs[0].value] + rest;
      AdmitAppend(host, [rs[0].value], rest);
      if m < |rs[1..]| {
        assert rs[1..][m] == rs[n];
      }
    }
  }

  /** One step of the inner walk: a fetched VM appends its filtered, stamped
      record and the walk carries on with the rest. */
  lemma WalkVmsStep(host: string, fetched: seq<Result<VmRecord, Fault>>, servers: seq<VmRecord>)
    requires fetched != [] && fetched[0].Ok?
    ensures WalkVms(host, fetched, servers) == WalkVms(host, fetched[1..], servers + Admit(host, [fetched[0].value]))
  {
    var rec := fetched[0].value;
    assert [rec][1..] == [];
    assert Admit(host, [rec]) == if Kept(rec) then [Stamp(rec, host)] else [];
    if !Kept(rec) {
      assert servers + [] == servers;
    }
  }

  /** The inner walk appends, to what it was given, the contribution of the
      host's VM loop, and reports the fault that ended it, if any. */
  lemma {:induction false} WalkVmsSpec(host: string, fetched: seq<Result<VmRecord, Fault>>, servers: seq<VmRecord>)
    ensures var contribution := Contribution(host, fetched);
      WalkVms(host, fetched, servers) == (servers + contribution.0, contribution.1)
    decreases |fetched|
  {
    if fetched == [] {
      assert Oks(fetched[..0]) == [];
      assert servers + [] == servers;
    } else if fetched[0].Err? {
      ContributionFirst(host, fetched);
      assert servers + [] == servers;
    } else {
      ContributionFirst(host, fetched);
      WalkVmsStep(host, fetched, servers);
      var head := Admit(host, [fetched[0].value]);
      WalkVmsSpec(host, fetched[1..], servers + head);
      var rest := Contribution(host, fetched[1..]);
      assert (servers + head) + rest.0 == servers + (head + rest.0);
    }
  }

  // ---------------------------------------------------------------------------
  // The outer walk
  // ---------------------------------------------------------------------------

  /** The outer walk, taken apart at the first host: a host that stops ends it,
      one that completes appends its record and VMs and the walk carries on. */
  lemma WalkHostsFirst(remote: Remote, hosts: seq<string>, acc: Snapshot)
    requires hosts != []
    ensures var visit := VisitHost(remote, hosts[0]);
      WalkHosts(remote, hosts, acc) ==
        if visit.Stopped? then (acc.(servers := acc.servers + visit.vms), Some(visit.fault))
        else WalkHosts(remote, hosts[1..], Snapshot(acc.hosts + [visit.record], acc.servers + visit.vms))
  {
    match remote.hostProperties(hosts[0])
    case Err(_) =>
      assert acc.servers + [] == acc.servers;
    case Ok(props) =>
      if Dies(props, VmListPath) {
        assert acc.servers + [] == acc.servers;
      } else {
        WalkVmsSpec(hosts[0], Fetches(remote, VmRefs(props)), acc.servers);
      }
  }

  /** The declared outcome, taken apart at the first visit in the same way. */
  lemma DeclaredFirst(visits: seq<Visit>, acc: Snapshot)
    requires visits != []
    ensures var visit := visits[0];
      Declared(visits, acc) ==
        if visit.Stopped? then (acc.(servers := acc.servers + visit.vms), Some(visit.fault))
        else Declared(visits[1..], Snapshot(acc.hosts + [visit.record], acc.servers + visit.vms))
  {
    var k := Reach(visits);
    var reached := visits[..k];
    if visits[0].Stopped? {
      assert reached == [visits[0]];
      assert [visits[0]][1..] == [];
      assert Records(reached) == [];
      assert VisitedVms(reached) == visits[0].vms + [];
      assert visits[0].vms + [] == visits[0].vms;
      assert acc.hosts + [] == acc.hosts;
    } else {
      var k' := Reach(visits[1..]);
      assert FirstStop(visits) == 1 + FirstStop(visits[1..]);
      assert k == 1 + k';
      assert reached[0] == visits[0];
      assert reached[1..] == visits[1..][..k'];
      var records := Records(visits[1..][..k']);
      var vms := VisitedVms(visits[1..][..k']);
      assert Records(reached) == [visits[0].record] + records;
      assert VisitedVms(reached) == visits[0].vms + vms;
      assert acc.hosts + ([visits[0].record] + records) == (acc.hosts + [visits[0].record]) + records;
      assert acc.servers + (visits[0].vms + vms) == (acc.servers + visits[0].vms) + vms;
      if FirstStop(visits[1..]) < |visits[1..]| {
        assert visits[1..][FirstStop(visits[1..])] == visits[FirstStop(visits)];
      }
    }
  }

  /** The visits of the configured hosts, taken apart at the first host. */
  lemma VisitsFirst(remote: Remote, hosts: seq<string>)
    requires hosts != []
    ensures Visits(remote, hosts)[0] == VisitHost(remote, hosts[0])
    ensures Visits(remote, hosts)[1..] == Visits(remote, hosts[1..])
  {
  }

  /** The outer walk does what `Declared` states of the visits of its hosts. */
  lemma {:induction false} WalkHostsSpec(remote: Remote, hosts: seq<string>, acc: Snapshot)
    ensures WalkHosts(remote, hosts, acc) == Declared(Visits(remote, hosts), acc)
    decreases |hosts|
  {
    var visits := Visits(remote, hosts);
    if hosts == [] {
      assert visits[..Reach(visits)] == [];
      assert acc.hosts + [] == acc.hosts;
      assert acc.servers + [] == acc.servers;
    } else {
      WalkHostsFirst(remote, hosts, acc);
      DeclaredFirst(visits, acc);
      VisitsFirst(remote, hosts);
      match VisitHost(remote, hosts[0])
      case Stopped(_, _) =>
      case Completed(record, vms) =>
        WalkHostsSpec(remote, hosts[1..], Snapshot(acc.hosts + [record], acc.servers + vms));
    }
  }

  // ---------------------------------------------------------------------------
  // Visits
  // ---------------------------------------------------------------------------

  /** Reading a host's VM list dies exactly when its `propSet` is an object;
      the extraction of its host record would die then too, and the list reads
      as empty. */
  lemma VmListReadDies(props: Value)
    ensures Dies(props, VmListPath) <==> Get(props, PropSet).Obj?
    ensures Dies(props, VmListPath) ==> HostDies(props) && VmRefs(props) == []
  {
    assert IndexesPropSetOnly(VmListPath);
    PropSetOnlyDies(props, VmListPath);
    if Get(props, PropSet).Obj? {
      PropSetObjectDies(props, 27, Down("ManagedObjectReference"));
      HostDiesIff(props);
      DyingReadIsNull(props, VmListPath);
    }
  }

  /** A host completes exactly when its property fetch goes through, its host
      record can be extracted, and every VM it lists can be fetched, extracted
      and echoed. */
  lemma HostCompletesIff(remote: Remote, host: string)
    ensures HostCompletes(remote, host) <==>
      remote.hostProperties(host).Ok? &&
      !HostDies(remote.hostProperties(host).value) &&
      forall j :: 0 <= j < |VmRefs(remote.hostProperties(host).value)| ==>
        Yields(remote.vmProperties(VmRefs(remote.hostProperties(host).value)[j]))
  {
    if remote.hostProperties(host).Ok? {
      var props := remote.hostProperties(host).value;
      var refs := VmRefs(props);
      var rs := Fetches(remote, refs);
      VmListReadDies(props);
      if Dies(props, VmListPath) {
      } else if FirstErr(rs) < |rs| {
        FetchedRecord(remote, refs, FirstErr(rs));
      } else {
        forall j | 0 <= j < |refs|
          ensures Yields(remote.vmProperties(refs[j]))
        {
          FetchedRecord(remote, refs, j);
        }
      }
    }
  }

  /** A host whose CPU packages the SOAP decoding left as a single object never
      completes, whatever its VMs: at the latest, the extraction of its record
      dies on `cpuPkg[0]`. */
  lemma SingleCpuPackageNeverCompletes(remote: Remote, host: string)
    requires remote.hostProperties(host).Ok?
    requires Get(remote.hostProperties(host).value, CpuPackages).Obj?
    ensures !HostCompletes(remote, host)
  {
    HostCompletesIff(remote, host);
    HostDiesIff(remote.hostProperties(host).value);
  }

  /** A completing host's record is `extractRelevantHostData` of its properties. */
  lemma CompletedRecord(remote: Remote, host: string)
    requires HostCompletes(remote, host)
    ensures remote.hostProperties(host).Ok?
    ensures VisitHost(remote, host).record == ExtractHost(remote.hostProperties(host).value)
  {
  }

  /** A host that lists no VMs completes as soon as its own fetch does, with its
      host record and no VM records, unless the extraction of that record dies. */
  lemma HostWithoutVms(remote: Remote, host: string)
    requires remote.hostProperties(host).Ok?
    requires VmRefs(remote.hostProperties(host).value) == []
    ensures var props := remote.hostProperties(host).value;
      VisitHost(remote, host) ==
        if HostDies(props) then Stopped([], IndexFatal) else Completed(ExtractHost(props), [])
  {
    VmListReadDies(remote.hostProperties(host).value);
    var rs := Fetches(remote, []);
    assert rs[..FirstErr(rs)] == [];
  }

  /** A host whose property fetch and every VM fetch, extraction and echo go through
      keeps, in the order the references are listed, the normalised
      non-templates stamped with its name; it completes with its host record
      unless the extraction of that record dies. */
  lemma CompletedVisit(remote: Remote, host: string)
    requires remote.hostProperties(host).Ok?
    requires var refs := VmRefs(remote.hostProperties(host).value);
      forall j :: 0 <= j < |refs| ==> Yields(remote.vmProperties(refs[j]))
    ensures var props := remote.hostProperties(host).value;
      var refs := VmRefs(props);
      var vms := Admit(host, seq(|refs|, j requires 0 <= j < |refs| && remote.vmProperties(refs[j]).Ok? =>
        ExtractVm(remote.vmProperties(refs[j]).value)));
      VisitHost(remote, host) ==
        if HostDies(props) then Stopped(vms, IndexFatal) else Completed(ExtractHost(props), vms)
  {
    VmListReadDies(remote.hostProperties(host).value);
    var refs := VmRefs(remote.hostProperties(host).value);
    var rs := Fetches(remote, refs);
    forall j | 0 <= j < |rs| ensures rs[j].Ok? {
      FetchedRecord(remote, refs, j);
    }
    assert FirstErr(rs) == |rs|;
    assert rs[..|rs|] == rs;
    assert Oks(rs) == seq(|refs|, j requires 0 <= j < |refs| && remote.vmProperties(refs[j]).Ok? =>
      ExtractVm(remote.vmProperties(refs[j]).value));
  }

  /** The VM records of a visit are the listed VMs, fetched before any fault,
      that are not templates, each normalised and stamped with the host's name. */
  lemma VisitVmsMembers(remote: Remote, host: string, x: VmRecord)
    requires remote.hostProperties(host).Ok?
    ensures var rs := Fetches(remote, VmRefs(remote.hostProperties(host).value));
      var n := FirstErr(rs);
      x in VisitHost(remote, host).vms <==>
        exists j :: 0 <= j < n && Kept(rs[j].value) && x == Stamp(rs[j].value, host)
  {
    VmListReadDies(remote.hostProperties(host).value);
    var rs := Fetches(remote, VmRefs(remote.hostProperties(host).value));
    var n := FirstErr(rs);
    var recs := Oks(rs[..n]);
    AdmitMembers(host, recs, x);
    assert forall j :: 0 <= j < n ==> recs[j] == rs[j].value;
  }

  /** A fetch that goes through yields `extractRelevantData` of what the VM's
      property fetch returned; one that throws carries that fault, one whose
      extraction dies carries the index error, and one whose name cannot be
      echoed carries the conversion error. */
  lemma FetchedRecord(remote: Remote, refs: seq<Value>, j: nat)
    requires j < |refs|
    ensures var r := Fetches(remote, refs)[j];
      var answer := remote.vmProperties(refs[j]);
      (r.Ok? <==> Yields(answer)) &&
      (r.Ok? ==> r.value == ExtractVm(answer.value)) &&
      (r.Err? ==>
         r.error == if answer.Err? then answer.error else if VmDies(answer.value) then IndexFatal else EchoFatal)
  {
  }

  /** Every VM record a visit leaves, completed or not, is a non-template stamped
      with the visited host's name. */
  lemma VisitVmsStamped(remote: Remote, host: string, x: VmRecord)
    requires x in VisitHost(remote, host).vms
    ensures Kept(x) && x.hostedOn == Some(host)
  {
    var refs := VmRefs(remote.hostProperties(host).value);
    var rs := Fetches(remote, refs);
    AdmitMembers(host, Oks(rs[..FirstErr(rs)]), x);
  }

  /** The host records of visits that all complete: one per visit, in order. */
  lemma {:induction false} RecordsOfCompleted(visits: seq<Visit>)
    requires forall i :: 0 <= i < |visits| ==> visits[i].Completed?
    ensures |Records(visits)| == |visits|
    ensures forall i :: 0 <= i < |visits| ==> Records(visits)[i] == visits[i].record
  {
    if visits != [] {
      RecordsOfCompleted(visits[1..]);
      assert forall i :: 1 <= i < |visits| ==> visits[1..][i - 1] == visits[i];
    }
  }

  /** A VM record of the visits is a VM record of one of them. */
  lemma {:induction false} VisitedVmsMembers(visits: seq<Visit>, x: VmRecord)
    ensures x in VisitedVms(visits) <==> exists i :: 0 <= i < |visits| && x in visits[i].vms
  {
    if visits != [] {
      VisitedVmsMembers(visits[1..], x);
      if x in VisitedVms(visits[1..]) {
        var i :| 0 <= i < |visits[1..]| && x in visits[1..][i].vms;
        assert visits[i + 1] == visits[1..][i];
      }
      if exists i :: 0 <= i < |visits| && x in visits[i].vms {
        var i :| 0 <= i < |visits| && x in visits[i].vms;
        if i > 0 {
          assert visits[1..][i - 1] == visits[i];
        }
      }
    }
  }

  /** Host records of a concatenation of visits. */
  lemma {:induction false} RecordsAppend(a: seq<Visit>, b: seq<Visit>)
    ensures Records(a + b) == Records(a) + Records(b)
  {
    if a != [] {
      assert (a + b)[0] == a[0];
      assert (a + b)[1..] == a[1..] + b;
      RecordsAppend(a[1..], b);
    } else {
      assert a + b == b;
    }
  }

  /** VM records of a concatenation of visits. */
  lemma {:induction false} VisitedVmsAppend(a: seq<Visit>, b: seq<Visit>)
    ensures VisitedVms(a + b) == VisitedVms(a) + VisitedVms(b)
  {
    if a != [] {
      assert (a + b)[0] == a[0];
      assert (a + b)[1..] == a[1..] + b;
      VisitedVmsAppend(a[1..], b);
    } else {
      assert a + b == b;
    }
  }

  // ---------------------------------------------------------------------------
  // What a call promises
  // ---------------------------------------------------------------------------

  /** Every configured host completes. */
  predicate AllComplete(remote: Remote, hosts: seq<string>) {
    forall i :: 0 <= i < |hosts| ==> HostCompletes(remote, hosts[i])
  }

  /** The visits of hosts that all complete all complete, and the walk reaches
      every one of them. */
  lemma AllCompleteVisits(remote: Remote, hosts: seq<string>)
    requires AllComplete(remote, hosts)
    ensures forall i :: 0 <= i < |hosts| ==> Visits(remote, hosts)[i].Completed?
    ensures FirstStop(Visits(remote, hosts)) == |hosts|
  {
  }

  /** A call returns the gathered data exactly when every configured host
      completes: its properties are fetched and its record extracted, and every
      VM it lists is fetched, extracted and echoed, all without a fault. */
  lemma CollectSucceedsIff(c: Client, remote: Remote)
    ensures Collect(c, remote).outcome.Returned? <==> AllComplete(remote, c.esxHosts)
  {
    var visits := Visits(remote, c.esxHosts);
    WalkHostsSpec(remote, c.esxHosts, Snapshot(c.hostData, c.serverData));
    if AllComplete(remote, c.esxHosts) {
      AllCompleteVisits(remote, c.esxHosts);
    } else {
      var i :| 0 <= i < |c.esxHosts| && !HostCompletes(remote, c.esxHosts[i]);
      assert visits[i] == VisitHost(remote, c.esxHosts[i]);
    }
  }

  /** A successful call returns the host records gathered before followed by
      those of the configured hosts, and likewise the VM records; the object
      keeps the same two lists. */
  lemma SuccessfulCollection(c: Client, remote: Remote)
    requires AllComplete(remote, c.esxHosts)
    ensures var call := Collect(c, remote);
      var visits := Visits(remote, c.esxHosts);
      call.outcome == Returned(Snapshot(call.client.hostData, call.client.serverData)) &&
      call.client.esxHosts == c.esxHosts &&
      call.client.hostData == c.hostData + Records(visits) &&
      call.client.serverData == c.serverData + VisitedVms(visits)
  {
    var visits := Visits(remote, c.esxHosts);
    WalkHostsSpec(remote, c.esxHosts, Snapshot(c.hostData, c.serverData));
    AllCompleteVisits(remote, c.esxHosts);
    assert visits[..Reach(visits)] == visits;
  }

  /** A successful call appends one host record per configured host, in the
      configured order, each `extractRelevantHostData` of that host's properties
      (a host without VMs included), after the records gathered before. */
  lemma OneHostRecordPerHost(c: Client, remote: Remote)
    requires AllComplete(remote, c.esxHosts)
    ensures var hosts := Collect(c, remote).client.hostData;
      |hosts| == |c.hostData| + |c.esxHosts| &&
      hosts[..|c.hostData|] == c.hostData &&
      forall i :: 0 <= i < |c.esxHosts| ==>
        remote.hostProperties(c.esxHosts[i]).Ok? &&
        hosts[|c.hostData| + i] == ExtractHost(remote.hostProperties(c.esxHosts[i]).value)
  {
    var visits := Visits(remote, c.esxHosts);
    SuccessfulCollection(c, remote);
    AllCompleteVisits(remote, c.esxHosts);
    RecordsOfCompleted(visits);
    var hosts := Collect(c, remote).client.hostData;
    forall i | 0 <= i < |c.esxHosts|
      ensures remote.hostProperties(c.esxHosts[i]).Ok?
      ensures hosts[|c.hostData| + i] == ExtractHost(remote.hostProperties(c.esxHosts[i]).value)
    {
      assert visits[i] == VisitHost(remote, c.esxHosts[i]);
      CompletedRecord(remote, c.esxHosts[i]);
    }
  }

  /** Every VM record a successful call adds, after those gathered before, is a
      non-template stamped with the name of a configured host. */
  lemma CollectedVmsAreStamped(c: Client, remote: Remote, j: nat)
    requires AllComplete(remote, c.esxHosts)
    requires |c.serverData| <= j < |Collect(c, remote).client.serverData|
    ensures var x := Collect(c, remote).client.serverData[j];
      Kept(x) && exists i :: 0 <= i < |c.esxHosts| && x.hostedOn == Some(c.esxHosts[i])
  {
    var visits := Visits(remote, c.esxHosts);
    SuccessfulCollection(c, remote);
    var x := Collect(c, remote).client.serverData[j];
    assert x == VisitedVms(visits)[j - |c.serverData|];
    VisitedVmsMembers(visits, x);
    var i :| 0 <= i < |visits| && x in visits[i].vms;
    assert visits[i] == VisitHost(remote, c.esxHosts[i]);
    VisitVmsStamped(remote, c.esxHosts[i], x);
  }

  /** When some visit stops, the declared outcome holds the records and VMs of
      the visits before it, then the VMs of the stopping visit, and its fault. */
  lemma DeclaredStopped(visits: seq<Visit>, acc: Snapshot)
    requires FirstStop(visits) < |visits|
    ensures var n := FirstStop(visits);
      var done := visits[..n];
      Declared(visits, acc) ==
        (Snapshot(acc.hosts + Records(done), acc.servers + VisitedVms(done) + visits[n].vms), Some(visits[n].fault)) &&
      |Records(done)| == n
  {
    var n := FirstStop(visits);
    var done := visits[..n];
    assert visits[..Reach(visits)] == done + [visits[n]];
    RecordsAppend(done, [visits[n]]);
    VisitedVmsAppend(done, [visits[n]]);
    assert Records([visits[n]]) == [] && VisitedVms([visits[n]]) == visits[n].vms + [] by {
      assert [visits[n]][1..] == [];
    }
    assert Records(done) + [] == Records(done);
    assert visits[n].vms + [] == visits[n].vms;
    assert (acc.servers + VisitedVms(done)) + visits[n].vms == acc.servers + (VisitedVms(done) + visits[n].vms);
    RecordsOfCompleted(done);
  }

  /** A failed call returns `false` when the fault is an exception and returns
      nothing when it is fatal; either way what it appended before the fault
      stays: the records and VMs of the hosts that completed, then the VMs the
      failing host fetched before the fault. The failing host gets no host
      record, since its record would only be appended after all its VMs. */
  lemma FailedCollectionKeepsAppends(c: Client, remote: Remote)
    requires !AllComplete(remote, c.esxHosts)
    ensures var visits := Visits(remote, c.esxHosts);
      var n := FirstStop(visits);
      var call := Collect(c, remote);
      n < |c.esxHosts| && call.outcome == EndedBy(visits[n].fault) &&
      call.client.esxHosts == c.esxHosts &&
      !HostCompletes(remote, c.esxHosts[n]) &&
      call.client.hostData == c.hostData + Records(visits[..n]) &&
      |Records(visits[..n])| == n &&
      call.client.serverData == c.serverData + VisitedVms(visits[..n]) + visits[n].vms
  {
    var visits := Visits(remote, c.esxHosts);
    CollectSucceedsIff(c, remote);
    WalkHostsSpec(remote, c.esxHosts, Snapshot(c.hostData, c.serverData));
    DeclaredStopped(visits, Snapshot(c.hostData, c.serverData));
    assert visits[FirstStop(visits)] == VisitHost(remote, c.esxHosts[FirstStop(visits)]);
  }

  /** Calling twice without resetting appends the same records again: the second
      result extends the first, so the call is not idempotent. */
  lemma RepeatedCollectionAccumulates(c: Client, remote: Remote)
    requires AllComplete(remote, c.esxHosts)
    ensures var first := Collect(c, remote);
      var second := Collect(first.client, remote);
      var visits := Visits(remote, c.esxHosts);
      first.outcome.Returned? && second.outcome.Returned? &&
      second.outcome.value.hosts == first.outcome.value.hosts + Records(visits) &&
      second.outcome.value.servers == first.outcome.value.servers + VisitedVms(visits) &&
      (c.esxHosts != [] ==> second.outcome != first.outcome)
  {
    var first := Collect(c, remote);
    SuccessfulCollection(c, remote);
    SuccessfulCollection(first.client, remote);
    AllCompleteVisits(remote, c.esxHosts);
    RecordsOfCompleted(Visits(remote, c.esxHosts));
  }

  /** On a new object, configuring hosts and collecting once returns exactly the
      records of those hosts and of their VMs, nothing else. */
  lemma FirstCollection(remote: Remote, hosts: seq<string>)
    requires AllComplete(remote, hosts)
    ensures var visits := Visits(remote, hosts);
      Collect(SetEsxHosts(Fresh, hosts), remote).outcome ==
        Returned(Snapshot(Records(visits), VisitedVms(visits)))
  {
    var c := SetEsxHosts(Fresh, hosts);
    SuccessfulCollection(c, remote);
    assert [] + Records(Visits(remote, hosts)) == Records(Visits(remote, hosts));
    assert [] + VisitedVms(Visits(remote, hosts)) == VisitedVms(Visits(remote, hosts));
  }
}

=== FILE: wrappers.dfy ===
/** Optional values and results of calls that may throw. */
module Wrappers {

  /** A value that may be missing. */
  datatype Option<T> = None | Some(value: T)

  /** The outcome of a call that either returns a value or throws an error. */
  datatype Result<T, E> = Ok(value: T) | Err(error: E)

  /** The number of results before the first error (all of them when none is
      an error). */
  function FirstErr<T, E>(rs: seq<Result<T, E>>): (n: nat)
    ensures n <= |rs|
    ensures forall j :: 0 <= j < n ==> rs[j].Ok?
    ensures n < |rs| ==> rs[n].Err?
  {
    if rs == [] || rs[0].Err? then 0 else 1 + FirstErr(rs[1..])
  }

  /** The values of results none of which is an error. */
  function Oks<T, E>(rs: seq<Result<T, E>>): seq<T>
    requires forall j :: 0 <= j < |rs| ==> rs[j].Ok?
  {
    seq(|rs|, j requires 0 <= j < |rs| => rs[j].value)
  }
}
